=== FILE: README.md ===
# Bookmark server: a Dafny model of its request handling

The bookmark server keeps an in-memory dictionary from short names to long
URIs. `GET /` shows a form with every known pairing, listed by short name.
`GET /<name>` redirects to the stored URI. A `POST` with the form fields
`longuri` and `shortname` saves the pairing, but only when a GET of the long
URI answers 200 OK.

This project models the decision logic of the handler class `Shortener` in
`BookmarkServer.py` as pure functions over an immutable store. It also models
`CheckURI`, with the network call passed in as a parameter.

- `StringOrder` (`string_order.dfy`): the order Python's `sorted` puts `str` keys in. It is lexicographic by code point, and a proper prefix sorts first. The module proves this order is a strict total order. `SortedKeys` enumerates a key set in that order, and that enumeration is unique.
- `Lines` (`lines.dfy`): `"\n".join(...)` and the `split("\n")` that reads it back.
- `Http` (`http.dfy`): response descriptors and `my_response`'s sequence of writes. The status comes first, then each header, then the end of the headers. The body follows only when the content is non-empty. Header lines are encoded as strict Latin-1 and buffered until the end of the headers, so a header character above U+00FF raises and nothing is sent. A reader, `Read`, recovers every response from the handler's writes for it. These writes are the handler's calls (`send_response`, `send_header`, `end_headers`, `wfile.write`), not the bytes on the socket.
- `Iri` (`iri.dfy`): the IRI-to-URI mapping of section 3.1 of RFC 3987, which percent-encodes the UTF-8 bytes of every non-ASCII character. It is used only by the corrected GET handler under Findings.
- `Validator` (`validator.dfy`): `CheckURI`. The outbound GET is a parameter `get(uri, timeout)` that reports a status code or a raised exception.
- `Bookmarks` (`bookmarks.dfy`): the store, the listing, `do_GET`, `do_POST` as written, the early-return variant, and the per-request dispatch. `HandlePost` has no `requires`. Its `Outcome` records four things: the responses sent in order, the store afterwards, the exception the handler ends with (if any), and the URIs handed to the reachability check.
- `Sessions` (`sessions.dfy`): requests served one after another against a shared store. This covers resolving after a create, overwriting, commuting creates, and the listing order.

Inputs the model takes as given:

- The handler receives a name that is already percent-decoded. `RequestName` drops the first character of the path, as `self.path[1:]` does, and applies an `unquote` parameter.
- A POST receives the already-decoded form as `map<string, seq<string>>`.
- Reachability is a parameter `reachable: string -> bool`. `ProbeFailureIsUnreachable` links it to `CheckURI`. In `Sessions.Replay` it is one fixed function for the whole run, so a URI gets the same verdict in every request, whereas a real probe may answer differently each time. No proved property depends on this: each lemma uses only the verdict of its own probes.

Two details of the code look unintended. The model keeps both as written:

- When a field is missing, the handler sends the 400 page and does not return. It goes on to `params["longuri"][0]` and raises `KeyError`. It raises for `longuri` first, or for `shortname` if only that field is absent.
- The unreachable-URI message has no space between `')` and `is`.

A third consequence of the code comes from the HTTP library: a stored URI with a character above U+00FF cannot be put into the `Location` header. `GET /<name>` then raises `UnicodeEncodeError` and sends nothing. The model keeps this as written too (see Findings).

## Model

| member | source | states |
|---|---|---|
| StringOrder.SortedKeys | BookmarkServer.py:127-128 | `sorted(memory.keys())`: the result is strictly ascending in Python's string order, holds exactly the given keys, and holds one entry per key |
| StringOrder.SortedKeysCharacterized | BookmarkServer.py:128 | any strictly ascending sequence that holds exactly the keys is the sorted key list, so the listing order is fully determined by the key set |
| StringOrder.BelowTotal | BookmarkServer.py:128 | any two distinct strings are ordered one way or the other, so `sorted` never has a tie between keys |
| StringOrder.Below | BookmarkServer.py:128 | Python's `<` on `str`: lexicographic by code point; a proper prefix sorts before any longer string it begins |
| StringOrder.BelowTransitive | BookmarkServer.py:128 | the key order is transitive |
| Lines.Join | BookmarkServer.py:127 | `"\n".join`: one line joins to itself, and the joined text begins with the first line followed by a newline when more lines come; characterised by `Lines.SplitJoin` for non-empty lists of newline-free lines |
| Lines.SplitJoin | BookmarkServer.py:127 | lines that contain no newline, once joined with `"\n"`, split back into exactly those lines |
| Http.Writes | BookmarkServer.py:102-109 | the writes are the status first, then every header in order, then the end of the headers; a body write comes last, and only when the content is non-empty |
| Http.Emit | BookmarkServer.py:102-109 | a response is sent exactly when every header name and value is Latin-1, and otherwise `send_header` raises and nothing is sent; the handler's writes for a response that is sent read back as exactly that response: its status, its headers in order, and its content, where an empty content and a missing body are the same thing |
| Http.ReadWrites | BookmarkServer.py:102-109 | reading the handler's writes for any response recovers its status, headers and content |
| Validator.CheckURI | BookmarkServer.py:82-96 | the URI is valid exactly when the GET answered status 200; any exception the GET raises yields false and is not passed on; the timeout defaults to 5 seconds |
| Bookmarks.ListingCharacterized | BookmarkServer.py:124-130 | the root listing is the newline join of `key : value` lines over any ascending enumeration of the stored keys |
| Bookmarks.Line | BookmarkServer.py:127 | a listing line is the key, then ` : `, then the URI, each readable back at its fixed position |
| Bookmarks.Listing | BookmarkServer.py:127-128 | the listing is empty exactly when the store is; fully characterised by `Bookmarks.ListingCharacterized` |
| Bookmarks.StoredLineListed | BookmarkServer.py:127-128 | every stored bookmark appears in the listing as its own `key : value` line |
| Bookmarks.NoBookmarkMessage | BookmarkServer.py:122 | the 404 message contains the requested name verbatim |
| Bookmarks.UnreachableMessage | BookmarkServer.py:157 | the refusal message contains both the long URI and the short name verbatim |
| Bookmarks.Redirect | BookmarkServer.py:117-119 | a redirect whose location is Latin-1 puts in the handler's writes only the 303 status and a single `Location` header, with no content-type and no body; any other location cannot be sent |
| Bookmarks.ErrorResponse | BookmarkServer.py:120-123 | an error page puts in the handler's writes the status, the content-type header, and then the page body |
| Bookmarks.RequestName | BookmarkServer.py:114 | the first character of the path is dropped whatever it is, so an empty path and a one-character path both decode the empty name |
| Bookmarks.HandleGet | BookmarkServer.py:111-130 | GET never changes the store and never probes; an empty name gives 200 with the listing form; a stored name with a Latin-1 URI gives a 303 to it with no body, and one with any other URI raises `UnicodeEncodeError` with nothing sent; an unknown name gives exactly the 404 page `There is no bookmark '<name>'.`; everything recorded as sent can be encoded |
| Bookmarks.HandleGetIntended | BookmarkServer.py:116-119 | with the stored URI mapped to a URI before it goes into `Location`, every stored name resolves with a single 303 that can be sent, and nothing raises |
| Bookmarks.NonLatin1NeverResolves | BookmarkServer.py:116-119 | as written, a bookmark stored for `https://de.wikipedia.org/wiki/€` is answered with nothing and a `UnicodeEncodeError` |
| Bookmarks.IntendedGetAgrees | BookmarkServer.py:111-130 | when the name is unknown, empty, or maps to an ASCII URI, the intended GET handler does exactly what the written one does |
| Bookmarks.FirstValue | BookmarkServer.py:144-145 | `params[key][0]` yields the first value exactly when the field exists and has a value; a missing field raises `KeyError` for that key |
| Bookmarks.MissingField | BookmarkServer.py:139 | when either field is absent, one of the two lookups that follow at lines 144-145 fails, so the fall-through always raises |
| Bookmarks.SaveIfReachable | BookmarkServer.py:144-158 | the responses already sent stay first and at most one more follows; at most one probe, of the first `longuri`, and it happens exactly when both lookups succeed; the store changes only after a reachable probe, and then only the first `shortname` is bound to it |
| Bookmarks.HandlePost | BookmarkServer.py:132-158 | a missing field sends the 400 page and then raises (for `longuri` first), with no store write and no probe; with both fields, the first `longuri` value is probed once; if reachable, the store maps the first `shortname` to it (overwriting) and the handler redirects to `/`; otherwise the store is unchanged and a 404 names both; the store changes only after a reachable probe; everything sent can be encoded |
| Bookmarks.HandlePostIntended | BookmarkServer.py:139-142 | with the early return, a missing field sends exactly the 400 page, leaves the store, never probes, and raises nothing |
| Bookmarks.Serve | BookmarkServer.py:147-149 | no request removes a key; any key whose value differs afterwards is the submitted short name of a POST, its new value is the submitted long URI, and that URI passed the check |
| Bookmarks.MissingFieldRaisesAsWritten | BookmarkServer.py:139-145 | a form carrying only `longuri` is answered 400 and the handler then raises `KeyError('shortname')` |
| Bookmarks.IntendedAgreesWithWritten | BookmarkServer.py:139-158 | the early-return handler sends the same responses, leaves the same store and probes the same URIs as the code as written; it differs only in not raising on a missing field |
| Sessions.ReplayOnlyGrows | BookmarkServer.py:147-149 | over any sequence of requests the set of short names only grows, because there is no delete |
| Sessions.GetsLeaveStore | BookmarkServer.py:111-130 | any run of GET requests leaves the store unchanged |
| Sessions.CreateThenResolve | BookmarkServer.py:147-152 | after a saved bookmark, a GET of its non-empty name answers with a single 303 whose only header is `Location` with the saved URI, and no body, when that URI is Latin-1; otherwise the GET raises with nothing sent, while the intended handler redirects to the escaped URI |
| Sessions.OverwriteReplaces | BookmarkServer.py:149 | saving under a name already in use replaces its URI without adding a key; the name then redirects to the new URI when it is Latin-1, and raises otherwise |
| Sessions.ListingAfterCreate | BookmarkServer.py:149 | after a saved bookmark, the root listing contains the line `shortname : longuri` |
| Sessions.MissingShortnameRejected | BookmarkServer.py:139-145 | a form without `shortname` gets the 400 page, probes nothing, and leaves the listing unchanged |
| Sessions.UnreachableLeavesStore | BookmarkServer.py:153-158 | a refused URI leaves the store as it was and sends exactly the 404 page naming both fields |
| Sessions.ProbeFailureIsUnreachable | BookmarkServer.py:89-96 | when the GET inside the probe raises, the POST answers 404, keeps the store, and ends without an exception |
| Sessions.DistinctCreatesCommute | BookmarkServer.py:149 | two saves under different names give the same store in either order, and both bookmarks are kept |
| Sessions.ListingOrderExample | BookmarkServer.py:127-128 | names saved in the order b, a, c are listed as a, b, c |
| Sessions.FirstValueWins | BookmarkServer.py:144-145 | when a field is repeated, only its first value is used |
| Sessions.ListingReadsBack | BookmarkServer.py:127-128 | for a non-empty store in which no name or URI contains a newline, splitting the listing at newlines gives back exactly one line per bookmark, in order |

## Left out

- The outbound HTTP GET inside `CheckURI` (`requests.get`). It is foreign network I/O, so it is the parameter `get`. The handlers take its verdict as `reachable`.
- Percent-decoding (`unquote`) and form decoding (`parse_qs`). These are library calls: the name decoder is a parameter, and the form arrives already decoded.
- Reading the POST body: `Content-length` parsing, `rfile.read` and `.decode()`. This is plumbing.
- Byte encoding of the body (`.encode()`). Bodies are kept as text.
- The HTML text of the two templates. `FormPage` and `ErrorPage` stand for the form and the error page wrapped around their argument; both templates are non-empty text.
- The `Server` and `Date` headers and the reason phrase that `send_response` adds on its own. The date needs a clock, and these do not depend on the request.
- `print` logging (BookmarkServer.py:94 and 106). It is assumed never to raise. On a console that cannot encode a character, it can. At line 106 that happens while printing a header value. At line 94, `print(e)` runs inside `CheckURI`'s `except` block, and the exception message can quote the raw URI, so the print itself can raise. That exception escapes `CheckURI` and `do_POST`, and nothing is sent. Neither case is modelled.
- Validator.CheckURI: "never passed on" covers the exceptions the GET raises, not one raised by line 94's `print(e)` on a console that cannot encode the message.
- Sessions.ProbeFailureIsUnreachable: "ends without an exception" assumes line 94's `print(e)` does not itself raise.
- The socket server startup (host, port 8000, `serve_forever`). This is process plumbing. What happens after a handler raises (the traceback and the closed connection) is also left out: the model records the exception and the store only.
- Concurrency. The source has a bare global dictionary and no lock. Its `http.server.HTTPServer` (BookmarkServer.py:162) has no threading mix-in, so it serves one request at a time. The sequential `Sessions.Replay` is therefore the program's own schedule.
- Header values are written unchecked. A CR or LF in a stored URI (form decoding turns `%0D%0A` into one) splits the `Location` line into several header lines on the socket. The model's writes are the handler's calls, not bytes, so `Read` still sees one `Location` header. Header injection through a stored URI is not modelled.

## Findings

| source | as written | input that shows it | evidently intended | confidence | as-written member | corrected member |
|---|---|---|---|---|---|---|
| BookmarkServer.py:139-145 | after sending the 400 page for a missing field, the handler does not return; it reads `params["longuri"][0]` and `params["shortname"][0]` and raises `KeyError` | a form with `longuri=http://example.com/` and no `shortname` | return right after the 400 page, with no exception | high (not executed) | Bookmarks.MissingFieldRaisesAsWritten | Bookmarks.HandlePostIntended |
| BookmarkServer.py:116-119 | the stored URI goes into the `Location` header unchanged; `send_header` encodes header lines as strict Latin-1, so a URI with a character above U+00FF raises `UnicodeEncodeError` and the bookmark can be saved but never resolved | a form with `longuri=https://de.wikipedia.org/wiki/%E2%82%AC` that `CheckURI` accepts, then `GET` of its short name | redirect every saved bookmark, mapping the IRI to a URI (section 3.1 of RFC 3987) for the header | high (not executed) | Bookmarks.NonLatin1NeverResolves | Bookmarks.HandleGetIntended |

The store effects of the two POST handlers are equal (`Bookmarks.IntendedAgreesWithWritten`), and the two GET handlers agree on every name whose URI is ASCII (`Bookmarks.IntendedGetAgrees`). The rest of the model keeps the code as written; `Sessions.CreateThenResolve` states both handlers' answers.

=== FILE: bookmarks.dfy ===
/**
 * The request handler `Shortener`: the GET flow (listing, resolve, unknown
 * name), the POST flow (missing fields, reachable URI, unreachable URI)
 * over an in-memory store from short name to long URI.
 */
module Bookmarks {
  import opened Wrappers
  import opened StringOrder
  import opened Lines
  import opened Http
  import opened Iri

  /** The global `memory` dictionary. */
  type Store = map<string, string>

  /** `parse_qs(body)`: every field name with the list of its values. */
  type Form = map<string, seq<string>>

  /** An exception that escapes a handler after its responses were sent. */
  datatype Fault =
    | KeyError(key: string)
    | IndexError(key: string)
    | UnicodeEncodeError(value: string)  // a header value outside Latin-1

  /**
   * What one request did: the responses written in order, the store
   * afterwards, the exception that ended the handler if any, and the URIs
   * handed to the reachability check.
   */
  datatype Outcome = Outcome(sent: seq<Response>, store: Store, fault: Option<Fault>, probed: seq<string>)

  /** A request as the server dispatches it. */
  datatype Request = Get(path: string) | Post(form: Form)

  /** `part` occurs in `text` starting at position `i`. */
  predicate OccursAt(text: string, part: string, i: int)
  {
    0 <= i <= |text| - |part| && text[i..i + |part|] == part
  }

  /** `text` holds `part` as a contiguous piece. */
  predicate Mentions(text: string, part: string)
  {
    exists i :: 0 <= i <= |text| && OccursAt(text, part, i)
  }

  /** One listing line, `"{} : {}".format(key, memory[key])`. */
  function Line(key: string, uri: string): (line: string)
    ensures |line| == |key| + 3 + |uri|
    ensures line[..|key|] == key && line[|key|..|key| + 3] == " : " && line[|key| + 3..] == uri
  {
    key + " : " + uri
  }

  /** The listing line of each key in `keys`, in the same order. */
  function LinesOf(keys: seq<string>, memory: Store): (lines: seq<string>)
    requires forall k :: k in keys ==> k in memory
    ensures |lines| == |keys|
    ensures forall i :: 0 <= i < |keys| ==> lines[i] == Line(keys[i], memory[keys[i]])
  {
    seq(|keys|, i requires 0 <= i < |keys| => Line(keys[i], memory[keys[i]]))
  }

  /** One line per stored bookmark, ordered by short name. */
  function ListingLines(memory: Store): (lines: seq<string>)
    ensures |lines| == |memory|
  {
    LinesOf(SortedKeys(memory.Keys), memory)
  }

  /** The text placed into the root form: the listing lines joined by newlines. */
  function Listing(memory: Store): (listing: string)
    ensures listing == "" <==> |memory| == 0
  {
    Join(ListingLines(memory))
  }

  /**
   * The listing is fully determined by the store: for ANY ascending
   * enumeration of the stored names, it is that enumeration's lines joined
   * by newlines, and every stored bookmark appears as its own line.
   */
  lemma ListingCharacterized(memory: Store, keys: seq<string>)
    requires Ascending(keys)
    requires forall k :: k in keys <==> k in memory
    ensures Listing(memory) == Join(LinesOf(keys, memory))
  {
    SortedKeysCharacterized(memory.Keys, keys);
  }

  /** Every stored bookmark appears in the listing as its own line. */
  lemma StoredLineListed(memory: Store, k: string)
    requires k in memory
    ensures Line(k, memory[k]) in ListingLines(memory)
  {
    var ks := SortedKeys(memory.Keys);
    assert k in ks;
    var i :| 0 <= i < |ks| && ks[i] == k;
    assert ListingLines(memory)[i] == Line(k, memory[k]);
  }

  /** `"There is no bookmark '{}'.".format(name)`. */
  function NoBookmarkMessage(name: string): (msg: string)
    ensures Mentions(msg, name)
  {
    var msg := "There is no bookmark '" + name + "'.";
    assert OccursAt(msg, name, 22);
    msg
  }

  const MissingFieldsMessage: string := "Values in both fields are needed to successfully add a bookmark"

  /**
   * The unreachable-URI message exactly as the handler formats it: there is
   * no space between the closing `')` and `is`.
   */
  function UnreachableMessage(longuri: string, shortname: string): (msg: string)
    ensures Mentions(msg, longuri) && Mentions(msg, shortname)
  {
    var msg := "Provided long URL ('" + longuri + "')is not working therefore can't save it as '"
      + shortname + "'.";
    assert OccursAt(msg, longuri, 20);
    assert OccursAt(msg, shortname, |msg| - 2 - |shortname|);
    msg
  }

  /** A redirect: only the status, the `Location` header and no body. */
  function Redirect(location: string): (r: Response)
    ensures Emit(r) == if Latin1(location)
                       then Some([SendStatus(303), SendHeader("Location", location), EndHeaders])
                       else None
  {
    var r := Response(303, [Header("Location", location)], NoContent);
    assert Latin1("Location");
    assert |r.headers| == 1 && r.headers[0] == Header("Location", location);
    assert Encodable(r) ==> Latin1(r.headers[0].value);
    assert Encodable(r) <==> Latin1(location);
    assert Writes(r) == [SendStatus(303), SendHeader("Location", location), EndHeaders];
    r
  }

  /** An HTML error page: the content-type header, then the page as the body. */
  function ErrorResponse(code: int, message: string): (r: Response)
    ensures Emit(r) == Some([SendStatus(code), SendHeader("Content-type", "text/html; charset=utf-8"),
                             EndHeaders, WriteBody(ErrorPage(message))])
  {
    var r := Response(code, ContentType, ErrorPage(message));
    PageEncodes(code, ErrorPage(message));
    assert Writes(r) == [SendStatus(code), SendHeader("Content-type", "text/html; charset=utf-8"),
                         EndHeaders, WriteBody(ErrorPage(message))];
    r
  }

  /** A page with the content-type header can always be sent. */
  lemma PageEncodes(code: int, content: Content)
    ensures Emit(Response(code, ContentType, content)).Some?
  {
    assert Latin1("Content-type") && Latin1("text/html; charset=utf-8");
  }

  /** `unquote(self.path[1:])`: the first character is dropped, whatever it is. */
  function RequestName(path: string, unquote: string -> string): (name: string)
    ensures |path| <= 1 ==> name == unquote("")
    ensures |path| > 1 ==> name == unquote(path[1..])
  {
    unquote(if |path| == 0 then "" else path[1..])
  }

  /**
   * `Shortener.do_GET` on an already decoded name. A stored URI outside
   * Latin-1 cannot go into the `Location` header: the handler raises and
   * sends nothing.
   */
  function HandleGet(name: string, memory: Store): (o: Outcome)
    ensures o.store == memory && o.probed == []
    ensures forall i :: 0 <= i < |o.sent| ==> Emit(o.sent[i]).Some?
    ensures name == "" ==>
      o.sent == [Response(200, ContentType, FormPage(Listing(memory)))] && o.fault == None
    ensures name != "" && name in memory && Latin1(memory[name]) ==>
      o.sent == [Redirect(memory[name])] && o.fault == None
    ensures name != "" && name in memory && !Latin1(memory[name]) ==>
      o.sent == [] && o.fault == Some(UnicodeEncodeError(memory[name]))
    ensures name != "" && name !in memory ==>
      o.sent == [ErrorResponse(404, NoBookmarkMessage(name))] && o.fault == None
  {
    PageEncodes(200, FormPage(Listing(memory)));
    if name != "" then
      if name in memory then
        if Latin1(memory[name]) then Outcome([Redirect(memory[name])], memory, None, [])
        else Outcome([], memory, Some(UnicodeEncodeError(memory[name])), [])
      else Outcome([ErrorResponse(404, NoBookmarkMessage(name))], memory, None, [])
    else
      Outcome([Response(200, ContentType, FormPage(Listing(memory)))], memory, None, [])
  }

  /**
   * `do_GET` with the stored URI mapped to a URI (section 3.1 of RFC 3987)
   * before it goes into the `Location` header, so that every stored
   * bookmark resolves.
   */
  function HandleGetIntended(name: string, memory: Store): (o: Outcome)
    ensures o.store == memory && o.probed == [] && o.fault == None && |o.sent| == 1
    ensures Emit(o.sent[0]).Some?
    ensures name != "" && name in memory ==> o.sent == [Redirect(Escape(memory[name]))]
  {
    if name != "" && name in memory then
      AsciiIsLatin1(Escape(memory[name]));
      Outcome([Redirect(Escape(memory[name]))], memory, None, [])
    else
      HandleGet(name, memory)
  }

  lemma AsciiIsLatin1(s: string)
    requires Ascii(s)
    ensures Latin1(s)
  {
  }

  /** As written, a bookmark whose URI holds a character above U+00FF never resolves. */
  lemma NonLatin1NeverResolves()
    ensures
      var memory := map["eur" := "https://de.wikipedia.org/wiki/\U{20AC}"];
      var o := HandleGet("eur", memory);
      o.sent == [] && o.fault == Some(UnicodeEncodeError(memory["eur"]))
  {
    var uri := "https://de.wikipedia.org/wiki/\U{20AC}";
    assert uri[30] == '\U{20AC}';
    assert !Latin1(uri);
  }

  /** Wherever the handler as written answers, the intended one answers the same. */
  lemma IntendedGetAgrees(name: string, memory: Store)
    requires name != "" && name in memory ==> Ascii(memory[name])
    ensures HandleGetIntended(name, memory) == HandleGet(name, memory)
  {
    if name != "" && name in memory {
      AsciiIsLatin1(memory[name]);
    }
  }

  /** `params[key][0]`, with the exception Python raises when it fails. */
  function FirstValue(params: Form, key: string): (r: Result<string, Fault>)
    ensures r.Success? <==> key in params && |params[key]| > 0
    ensures r.Success? ==> r.value == params[key][0]
    ensures key !in params ==> r == Failure(KeyError(key))
  {
    if key !in params then Failure(KeyError(key))
    else if |params[key]| == 0 then Failure(IndexError(key))
    else Success(params[key][0])
  }

  /** Either form field is absent. */
  predicate MissingField(params: Form)
    ensures MissingField(params) ==>
      FirstValue(params, "longuri").Failure? || FirstValue(params, "shortname").Failure?
  {
    "longuri" !in params || "shortname" !in params
  }

  /**
   * Both fields read, probe, then store-and-redirect or refuse. Shared by
   * the handler as written and the intended early-return handler.
   */
  function SaveIfReachable(sent: seq<Response>, params: Form, memory: Store, reachable: string -> bool): (o: Outcome)
    ensures |sent| <= |o.sent| <= |sent| + 1 && o.sent[..|sent|] == sent
    ensures |o.probed| <= 1
    ensures o.probed != [] ==> FirstValue(params, "longuri") == Success(o.probed[0])
    ensures o.probed != [] <==> o.fault == None
    ensures o.probed != [] <==>
      FirstValue(params, "longuri").Success? && FirstValue(params, "shortname").Success?
    ensures o.store != memory ==>
      o.probed != [] && reachable(o.probed[0])
      && FirstValue(params, "shortname").Success?
      && o.store == memory[FirstValue(params, "shortname").value := o.probed[0]]
  {
    match FirstValue(params, "longuri")
    case Failure(f) => Outcome(sent, memory, Some(f), [])
    case Success(longuri) =>
      match FirstValue(params, "shortname")
      case Failure(f) => Outcome(sent, memory, Some(f), [])
      case Success(shortname) =>
        if reachable(longuri) then
          Outcome(sent + [Redirect("/")], memory[shortname := longuri], None, [longuri])
        else
          Outcome(sent + [ErrorResponse(404, UnreachableMessage(longuri, shortname))], memory, None, [longuri])
  }

  /**
   * `Shortener.do_POST` as written: a missing field sends the 400 page and
   * then falls through to `params["longuri"][0]`, which raises.
   */
  function HandlePost(params: Form, memory: Store, reachable: string -> bool): (o: Outcome)
    ensures MissingField(params) ==>
      && o.sent == [ErrorResponse(400, MissingFieldsMessage)]
      && o.store == memory
      && o.probed == []
      && o.fault == Some(
        if "longuri" !in params then KeyError("longuri")
        else if |params["longuri"]| == 0 then IndexError("longuri")
        else KeyError("shortname"))
    ensures !MissingField(params) && |params["longuri"]| > 0 && |params["shortname"]| > 0 ==>
      var longuri := params["longuri"][0];
      var shortname := params["shortname"][0];
      && o.fault == None
      && o.probed == [longuri]
      && (reachable(longuri) ==>
            o.store == memory[shortname := longuri] && o.sent == [Redirect("/")])
      && (!reachable(longuri) ==>
            && o.store == memory
            && |o.sent| == 1 && o.sent[0].code == 404 && o.sent[0].headers == ContentType
            && o.sent[0].content == ErrorPage(UnreachableMessage(longuri, shortname)))
    ensures o.store != memory ==> |o.probed| == 1 && reachable(o.probed[0])
    ensures forall i :: 0 <= i < |o.sent| ==> Emit(o.sent[i]).Some?
  {
    assert Latin1("Location") && Latin1("/");
    var sent := if MissingField(params) then [ErrorResponse(400, MissingFieldsMessage)] else [];
    SaveIfReachable(sent, params, memory, reachable)
  }

  /** `do_POST` with the return after the 400 page that the missing-field branch evidently intends. */
  function HandlePostIntended(params: Form, memory: Store, reachable: string -> bool): (o: Outcome)
    ensures MissingField(params) ==>
      o == Outcome([ErrorResponse(400, MissingFieldsMessage)], memory, None, [])
  {
    if MissingField(params) then Outcome([ErrorResponse(400, MissingFieldsMessage)], memory, None, [])
    else SaveIfReachable([], params, memory, reachable)
  }

  /** One request: GET by its decoded path, POST by its form (its path is ignored). */
  function Serve(req: Request, memory: Store, unquote: string -> string, reachable: string -> bool): (o: Outcome)
    ensures memory.Keys <= o.store.Keys
    ensures forall k :: k in o.store && (k !in memory || o.store[k] != memory[k]) ==>
      && req.Post?
      && FirstValue(req.form, "shortname") == Success(k)
      && FirstValue(req.form, "longuri") == Success(o.store[k])
      && reachable(o.store[k])
  {
    match req
    case Get(path) => HandleGet(RequestName(path, unquote), memory)
    case Post(form) => HandlePost(form, memory, reachable)
  }

  /** As written, a form with `longuri` alone is answered 400 and the handler then raises. */
  lemma MissingFieldRaisesAsWritten(memory: Store, reachable: string -> bool)
    ensures
      var o := HandlePost(map["longuri" := ["http://example.com/"]], memory, reachable);
      o.sent == [ErrorResponse(400, MissingFieldsMessage)] && o.fault == Some(KeyError("shortname"))
  {
  }

  /** Apart from that exception, the intended handler does exactly what the written one does. */
  lemma IntendedAgreesWithWritten(params: Form, memory: Store, reachable: string -> bool)
    ensures
      var written := HandlePost(params, memory, reachable);
      var intended := HandlePostIntended(params, memory, reachable);
      && intended.sent == written.sent
      && intended.store == written.store
      && intended.probed == written.probed
      && intended.fault == (if MissingField(params) then None else written.fault)
  {
  }
}

=== FILE: http.dfy ===
/**
 * Response descriptors and the calls `Shortener.my_response` makes for them:
 * the status line, then every header in order, then the end of the
 * headers, then the body text only when that text is non-empty. Header
 * lines are encoded as strict Latin-1 and held back until the end of the
 * headers, so one header character above U+00FF raises before anything is
 * sent.
 */
module Http {
  import opened Wrappers

  datatype Header = Header(name: string, value: string)

  /**
   * The text handed to `my_response` as its content. The two HTML
   * templates are kept opaque: `FormPage` is the root form wrapped around
   * the listing and `ErrorPage` the error form wrapped around a message.
   * Both templates are non-empty text; `Text("")` is the default `''`.
   */
  datatype Content = Text(text: string) | FormPage(listing: string) | ErrorPage(message: string)
  {
    /** Python's truth test on the content string. */
    predicate IsEmpty() {
      Text? && text == ""
    }
  }

  datatype Response = Response(code: int, headers: seq<Header>, content: Content)

  /** One write of the request handler onto its connection. */
  datatype Event =
    | SendStatus(code: int)
    | SendHeader(name: string, value: string)
    | EndHeaders
    | WriteBody(content: Content)

  /** The class attribute `c_type`. */
  const ContentType: seq<Header> := [Header("Content-type", "text/html; charset=utf-8")]

  /** The default content: nothing is written after the headers. */
  const NoContent: Content := Text("")

  function HeaderEvents(headers: seq<Header>): (events: seq<Event>)
    ensures |events| == |headers|
    ensures forall i :: 0 <= i < |headers| ==>
      events[i] == SendHeader(headers[i].name, headers[i].value)
  {
    if |headers| == 0 then []
    else [SendHeader(headers[0].name, headers[0].value)] + HeaderEvents(headers[1..])
  }

  /** Every character fits in one Latin-1 byte. */
  predicate Latin1(s: string)
  {
    forall i :: 0 <= i < |s| ==> s[i] <= '\U{FF}'
  }

  /** Every header line of `r` can be encoded as Latin-1. */
  predicate Encodable(r: Response)
  {
    forall i :: 0 <= i < |r.headers| ==> Latin1(r.headers[i].name) && Latin1(r.headers[i].value)
  }

  /** What `my_response(code, headers, content)` writes once every header line encodes. */
  function Writes(r: Response): (events: seq<Event>)
    ensures |events| == |r.headers| + 2 + (if r.content.IsEmpty() then 0 else 1)
    ensures events[0] == SendStatus(r.code)
    ensures forall i :: 0 <= i < |r.headers| ==>
      events[1 + i] == SendHeader(r.headers[i].name, r.headers[i].value)
    ensures events[|r.headers| + 1] == EndHeaders
    ensures (exists i :: 0 <= i < |events| && events[i].WriteBody?) <==> !r.content.IsEmpty()
    ensures !r.content.IsEmpty() ==> events[|events| - 1] == WriteBody(r.content)
  {
    var head := [SendStatus(r.code)] + HeaderEvents(r.headers) + [EndHeaders];
    assert forall i :: 0 <= i < |head| ==> !head[i].WriteBody?;
    if r.content.IsEmpty() then head
    else
      var events := head + [WriteBody(r.content)];
      assert events[|head|].WriteBody?;
      events
  }

  /**
   * `my_response`: the writes, or `None` when a header line cannot be
   * encoded, in which case the buffered status and headers are never sent.
   */
  function Emit(r: Response): (w: Option<seq<Event>>)
    ensures w.Some? <==> Encodable(r)
    ensures w.Some? ==> Read(w.value) == Some(r)
  {
    ReadWrites(r);
    if Encodable(r) then Some(Writes(r)) else None
  }

  /** Reads header writes up to the end of the headers; returns the headers and what follows. */
  function ReadHeaders(events: seq<Event>): Option<(seq<Header>, seq<Event>)>
    decreases |events|
  {
    if |events| == 0 then None
    else match events[0]
      case EndHeaders => Some(([], events[1..]))
      case SendHeader(n, v) =>
        (match ReadHeaders(events[1..])
         case None => None
         case Some(p) => Some(([Header(n, v)] + p.0, p.1)))
      case _ => None
  }

  /** The response that the handler's writes for it read back as. */
  function Read(events: seq<Event>): Option<Response>
  {
    if |events| == 0 || !events[0].SendStatus? then None
    else match ReadHeaders(events[1..])
      case None => None
      case Some(p) =>
        if |p.1| == 0 then Some(Response(events[0].code, p.0, NoContent))
        else if |p.1| == 1 && p.1[0].WriteBody? && !p.1[0].content.IsEmpty() then
          Some(Response(events[0].code, p.0, p.1[0].content))
        else None
  }

  lemma {:induction false} ReadHeaderEvents(headers: seq<Header>, rest: seq<Event>)
    ensures ReadHeaders(HeaderEvents(headers) + [EndHeaders] + rest) == Some((headers, rest))
    decreases |headers|
  {
    var events := HeaderEvents(headers) + [EndHeaders] + rest;
    if |headers| == 0 {
      assert events[1..] == rest;
    } else {
      assert events[1..] == HeaderEvents(headers[1..]) + [EndHeaders] + rest;
      ReadHeaderEvents(headers[1..], rest);
      assert [headers[0]] + headers[1..] == headers;
    }
  }

  /** Every response is read back exactly from the handler's writes for it. */
  lemma ReadWrites(r: Response)
    ensures Read(Writes(r)) == Some(r)
  {
    var events := Writes(r);
    var body := if r.content.IsEmpty() then [] else [WriteBody(r.content)];
    assert events == [SendStatus(r.code)] + (HeaderEvents(r.headers) + [EndHeaders] + body);
    assert events[1..] == HeaderEvents(r.headers) + [EndHeaders] + body;
    ReadHeaderEvents(r.headers, body);
  }
}

=== FILE: iri.dfy ===
/**
 * The IRI-to-URI mapping of section 3.1 of RFC 3987: every character
 * outside ASCII is replaced by the percent-encoded bytes of its UTF-8
 * form. It turns any stored long URI into a `Location` value that a
 * Latin-1 header line can carry.
 */
module Iri {

  predicate Ascii(s: string)
  {
    forall i :: 0 <= i < |s| ==> s[i] < '\U{80}'
  }

  function HexDigit(n: nat): (c: char)
    requires n < 16
    ensures c < '\U{80}'
    ensures n < 10 ==> '0' <= c <= '9'
    ensures 10 <= n ==> 'A' <= c <= 'F'
  {
    if n < 10 then ('0' as int + n) as char else ('A' as int + n - 10) as char
  }

  /** `%XY` for one byte, upper-case hexadecimal. */
  function Percent(b: nat): (r: string)
    requires b < 256
    ensures |r| == 3 && r[0] == '%' && Ascii(r)
  {
    ['%', HexDigit(b / 16), HexDigit(b % 16)]
  }

  /** The UTF-8 bytes of a code point above U+007F. */
  function Utf8(cp: nat): (bytes: seq<nat>)
    requires 0x80 <= cp <= 0x10FFFF
    ensures |bytes| == (if cp < 0x800 then 2 else if cp < 0x10000 then 3 else 4)
    ensures |bytes| == 2 ==> 0xC0 <= bytes[0] < 0xE0
    ensures |bytes| == 3 ==> 0xE0 <= bytes[0] < 0xF0
    ensures |bytes| == 4 ==> 0xF0 <= bytes[0] < 0xF8
    ensures forall i :: 1 <= i < |bytes| ==> 0x80 <= bytes[i] < 0xC0
  {
    if cp < 0x800 then [0xC0 + cp / 64, 0x80 + cp % 64]
    else if cp < 0x10000 then [0xE0 + cp / 4096, 0x80 + (cp / 64) % 64, 0x80 + cp % 64]
    else [0xF0 + cp / 262144, 0x80 + (cp / 4096) % 64, 0x80 + (cp / 64) % 64, 0x80 + cp % 64]
  }

  function PercentAll(bytes: seq<nat>): (r: string)
    requires forall i :: 0 <= i < |bytes| ==> bytes[i] < 256
    ensures |r| == 3 * |bytes| && Ascii(r)
  {
    if |bytes| == 0 then [] else Percent(bytes[0]) + PercentAll(bytes[1..])
  }

  /** One character: itself when ASCII, otherwise its percent-encoded UTF-8 bytes. */
  function EscapeChar(c: char): (r: string)
    ensures Ascii(r)
    ensures c < '\U{80}' <==> r == [c]
  {
    if c < '\U{80}' then [c]
    else PercentAll(Utf8(c as int))
  }

  /** The whole string, character by character. */
  function Escape(s: string): (r: string)
    ensures Ascii(r)
    ensures Ascii(s) ==> r == s
    ensures |s| <= |r|
  {
    if |s| == 0 then "" else EscapeChar(s[0]) + Escape(s[1..])
  }
}

=== FILE: lines.dfy ===
/**
 * Newline-joined text, as Python's `"\n".join(lines)` builds it, and the
 * matching `str.split("\n")` that reads it back.
 */
module Lines {

  /** `"\n".join(lines)`: the empty list joins to the empty string. */
  function Join(lines: seq<string>): (r: string)
    ensures |lines| == 1 ==> r == lines[0]
    ensures |lines| > 0 ==> |lines[0]| <= |r| && r[..|lines[0]|] == lines[0]
    ensures |lines| > 1 ==> |lines[0]| < |r| && r[|lines[0]|] == '\n'
    decreases |lines|
  {
    if |lines| == 0 then ""
    else if |lines| == 1 then lines[0]
    else lines[0] + "\n" + Join(lines[1..])
  }

  /** `s.split("\n")`: always at least one (possibly empty) piece. */
  function Split(s: string): (r: seq<string>)
    ensures |r| > 0
    ensures forall i :: 0 <= i < |r| ==> '\n' !in r[i]
    decreases |s|
  {
    if |s| == 0 then [""]
    else
      var rest := Split(s[1..]);
      if s[0] == '\n' then [""] + rest
      else [[s[0]] + rest[0]] + rest[1..]
  }

  lemma {:induction false} SplitNoNewline(a: string)
    requires '\n' !in a
    ensures Split(a) == [a]
    decreases |a|
  {
    if |a| > 0 {
      SplitNoNewline(a[1..]);
      assert a == [a[0]] + a[1..];
    }
  }

  lemma {:induction false} SplitAfterLine(a: string, t: string)
    requires '\n' !in a
    ensures Split(a + "\n" + t) == [a] + Split(t)
    decreases |a|
  {
    var s := a + "\n" + t;
    if |a| == 0 {
      assert s[1..] == t;
    } else {
      assert s[1..] == a[1..] + "\n" + t;
      SplitAfterLine(a[1..], t);
      assert [a[0]] + a[1..] == a;
    }
  }

  /** Joining lines that hold no newline and splitting again gives the lines back. */
  lemma {:induction false} SplitJoin(lines: seq<string>)
    requires |lines| > 0
    requires forall i :: 0 <= i < |lines| ==> '\n' !in lines[i]
    ensures Split(Join(lines)) == lines
    decreases |lines|
  {
    if |lines| == 1 {
      SplitNoNewline(lines[0]);
    } else {
      SplitJoin(lines[1..]);
      SplitAfterLine(lines[0], Join(lines[1..]));
      assert lines == [lines[0]] + lines[1..];
    }
  }
}

=== FILE: sessions.dfy ===
/**
 * Requests served one after another against the same store: what one
 * request leaves behind is what the next one sees.
 */
module Sessions {
  import opened Wrappers
  import opened StringOrder
  import opened Lines
  import opened Http
  import opened Validator
  import opened Iri
  import opened Bookmarks

  /** The store after serving `reqs` in order, starting from `memory`. */
  function Replay(reqs: seq<Request>, memory: Store, unquote: string -> string, reachable: string -> bool): Store
    decreases |reqs|
  {
    if |reqs| == 0 then memory
    else Replay(reqs[1..], Serve(reqs[0], memory, unquote, reachable).store, unquote, reachable)
  }

  /** No request removes a bookmark: the set of short names only grows. */
  lemma {:induction false} ReplayOnlyGrows(reqs: seq<Request>, memory: Store, unquote: string -> string, reachable: string -> bool)
    ensures memory.Keys <= Replay(reqs, memory, unquote, reachable).Keys
    decreases |reqs|
  {
    if |reqs| > 0 {
      ReplayOnlyGrows(reqs[1..], Serve(reqs[0], memory, unquote, reachable).store, unquote, reachable);
    }
  }

  /** A run of GET requests leaves the store as it found it. */
  lemma {:induction false} GetsLeaveStore(reqs: seq<Request>, memory: Store, unquote: string -> string, reachable: string -> bool)
    requires forall i :: 0 <= i < |reqs| ==> reqs[i].Get?
    ensures Replay(reqs, memory, unquote, reachable) == memory
    decreases |reqs|
  {
    if |reqs| > 0 {
      GetsLeaveStore(reqs[1..], memory, unquote, reachable);
    }
  }

  /** A submitted form carrying `longuri` and `shortname` first in their fields. */
  predicate Submits(params: Form, longuri: string, shortname: string)
  {
    && FirstValue(params, "longuri") == Success(longuri)
    && FirstValue(params, "shortname") == Success(shortname)
  }

  /**
   * After a saved bookmark, GET of its name redirects to its URI with no
   * body, provided the URI fits a Latin-1 header; otherwise the GET raises
   * and sends nothing, while the intended handler still redirects.
   */
  lemma CreateThenResolve(params: Form, memory: Store, reachable: string -> bool, longuri: string, shortname: string)
    requires Submits(params, longuri, shortname) && reachable(longuri)
    requires shortname != ""
    ensures HandlePost(params, memory, reachable).sent == [Redirect("/")]
    ensures
      var o := HandleGet(shortname, HandlePost(params, memory, reachable).store);
      && (Latin1(longuri) ==>
            && o.sent == [Redirect(longuri)] && o.fault == None
            && Emit(o.sent[0]) == Some([SendStatus(303), SendHeader("Location", longuri), EndHeaders]))
      && (!Latin1(longuri) ==> o.sent == [] && o.fault == Some(UnicodeEncodeError(longuri)))
    ensures HandleGetIntended(shortname, HandlePost(params, memory, reachable).store).sent
      == [Redirect(Escape(longuri))]
  {
  }

  /** Saving under a name already in use replaces the old URI. */
  lemma OverwriteReplaces(memory: Store, first: Form, second: Form, reachable: string -> bool,
                          previous: string, replacement: string, shortname: string)
    requires Submits(first, previous, shortname) && Submits(second, replacement, shortname)
    requires reachable(previous) && reachable(replacement) && shortname != ""
    ensures
      var once := HandlePost(first, memory, reachable).store;
      var twice := HandlePost(second, once, reachable).store;
      && twice[shortname] == replacement
      && twice.Keys == once.Keys
      && (Latin1(replacement) ==> HandleGet(shortname, twice).sent == [Redirect(replacement)])
      && (!Latin1(replacement) ==>
            HandleGet(shortname, twice).fault == Some(UnicodeEncodeError(replacement)))
  {
  }

  /** After a saved bookmark, the root listing has its `name : uri` line. */
  lemma ListingAfterCreate(params: Form, memory: Store, reachable: string -> bool, longuri: string, shortname: string)
    requires Submits(params, longuri, shortname) && reachable(longuri)
    ensures Line(shortname, longuri) in ListingLines(HandlePost(params, memory, reachable).store)
  {
    var after := HandlePost(params, memory, reachable).store;
    assert after == memory[shortname := longuri];
    StoredLineListed(after, shortname);
  }

  /** A form without `shortname` gets the 400 page and changes nothing, listing included. */
  lemma MissingShortnameRejected(params: Form, memory: Store, reachable: string -> bool)
    requires "shortname" !in params
    ensures HandlePost(params, memory, reachable).sent == [ErrorResponse(400, MissingFieldsMessage)]
    ensures Listing(HandlePost(params, memory, reachable).store) == Listing(memory)
    ensures HandlePost(params, memory, reachable).probed == []
  {
  }

  /** A URI the check refuses leaves the store, and so the listing, as it was. */
  lemma UnreachableLeavesStore(params: Form, memory: Store, reachable: string -> bool, longuri: string, shortname: string)
    requires Submits(params, longuri, shortname) && !reachable(longuri)
    ensures HandlePost(params, memory, reachable).store == memory
    ensures HandlePost(params, memory, reachable).sent
      == [ErrorResponse(404, UnreachableMessage(longuri, shortname))]
  {
  }

  /**
   * A probe that raised (a timeout, say) is an unreachable URI and nothing
   * more: the handler answers 404 and ends without an exception.
   */
  lemma ProbeFailureIsUnreachable(params: Form, memory: Store, get: (string, nat) -> Probe,
                                  longuri: string, shortname: string)
    requires Submits(params, longuri, shortname)
    requires get(longuri, DefaultTimeout).Raised?
    ensures HandlePost(params, memory, u => CheckURI(u, get)).store == memory
    ensures HandlePost(params, memory, u => CheckURI(u, get)).fault == None
    ensures HandlePost(params, memory, u => CheckURI(u, get)).sent[0].code == 404
  {
    assert !CheckURI(longuri, get);
  }

  lemma ReplayPair(x: Request, y: Request, memory: Store, unquote: string -> string, reachable: string -> bool)
    ensures Replay([x, y], memory, unquote, reachable)
         == Serve(y, Serve(x, memory, unquote, reachable).store, unquote, reachable).store
  {
    var m1 := Serve(x, memory, unquote, reachable).store;
    assert [x, y][1..] == [y];
    assert Replay([y], m1, unquote, reachable) == Replay([], Serve(y, m1, unquote, reachable).store, unquote, reachable);
  }

  /** Two saves under different names land in either order: neither is lost. */
  lemma DistinctCreatesCommute(memory: Store, fa: Form, fb: Form, unquote: string -> string, reachable: string -> bool,
                               ua: string, a: string, ub: string, b: string)
    requires Submits(fa, ua, a) && Submits(fb, ub, b)
    requires a != b && reachable(ua) && reachable(ub)
    ensures Replay([Post(fa), Post(fb)], memory, unquote, reachable)
         == Replay([Post(fb), Post(fa)], memory, unquote, reachable)
    ensures
      var after := Replay([Post(fa), Post(fb)], memory, unquote, reachable);
      a in after && after[a] == ua && b in after && after[b] == ub
  {
    ReplayPair(Post(fa), Post(fb), memory, unquote, reachable);
    ReplayPair(Post(fb), Post(fa), memory, unquote, reachable);
    assert HandlePost(fa, memory, reachable).store == memory[a := ua];
    assert HandlePost(fb, memory, reachable).store == memory[b := ub];
    assert HandlePost(fb, memory[a := ua], reachable).store == memory[a := ua][b := ub];
    assert HandlePost(fa, memory[b := ub], reachable).store == memory[b := ub][a := ua];
    assert memory[a := ua][b := ub] == memory[b := ub][a := ua];
  }

  /** Short names saved as b, a, c are listed as a, b, c. */
  lemma ListingOrderExample(unquote: string -> string, reachable: string -> bool)
    requires reachable("u1") && reachable("u2") && reachable("u3")
    ensures
      var fb := map["longuri" := ["u1"], "shortname" := ["b"]];
      var fa := map["longuri" := ["u2"], "shortname" := ["a"]];
      var fc := map["longuri" := ["u3"], "shortname" := ["c"]];
      Listing(Replay([Post(fb), Post(fa), Post(fc)], map[], unquote, reachable))
        == "a : u2\nb : u1\nc : u3"
  {
    var fb := map["longuri" := ["u1"], "shortname" := ["b"]];
    var fa := map["longuri" := ["u2"], "shortname" := ["a"]];
    var fc := map["longuri" := ["u3"], "shortname" := ["c"]];
    var reqs := [Post(fb), Post(fa), Post(fc)];
    var m1 := HandlePost(fb, map[], reachable).store;
    assert m1 == map["b" := "u1"];
    var m2 := HandlePost(fa, m1, reachable).store;
    assert m2 == map["b" := "u1", "a" := "u2"];
    var m3 := HandlePost(fc, m2, reachable).store;
    assert m3 == map["b" := "u1", "a" := "u2", "c" := "u3"];
    assert reqs[1..] == [Post(fa), Post(fc)];
    ReplayPair(Post(fa), Post(fc), m1, unquote, reachable);
    assert Replay(reqs, map[], unquote, reachable) == m3;
    ExampleListing();
  }

  lemma ExampleListing()
    ensures Listing(map["b" := "u1", "a" := "u2", "c" := "u3"]) == "a : u2\nb : u1\nc : u3"
  {
    var m := map["b" := "u1", "a" := "u2", "c" := "u3"];
    var keys := ["a", "b", "c"];
    ExampleKeysAscending();
    assert forall k :: k in keys <==> k in m;
    ListingCharacterized(m, keys);
    ExampleLines();
  }

  lemma ExampleKeysAscending()
    ensures Ascending(["a", "b", "c"])
  {
    assert Below("a", "b") && Below("b", "c") && Below("a", "c");
  }

  lemma ExampleLines()
    ensures Join(LinesOf(["a", "b", "c"], map["b" := "u1", "a" := "u2", "c" := "u3"]))
      == "a : u2\nb : u1\nc : u3"
  {
    var lines := LinesOf(["a", "b", "c"], map["b" := "u1", "a" := "u2", "c" := "u3"]);
    assert Line("a", "u2") == "a : u2";
    assert Line("b", "u1") == "b : u1";
    assert Line("c", "u3") == "c : u3";
    assert lines == ["a : u2", "b : u1", "c : u3"];
    assert lines[1..][1..] == ["c : u3"];
    assert Join(lines[1..]) == "b : u1" + "\n" + "c : u3";
  }

  /** Only the first value of a repeated field is used. */
  lemma FirstValueWins(memory: Store, reachable: string -> bool, longuri: string, later: string, shortname: string)
    requires reachable(longuri)
    ensures
      var params := map["longuri" := [longuri, later], "shortname" := [shortname, later]];
      HandlePost(params, memory, reachable).store == memory[shortname := longuri]
  {
  }

  /** A listing of lines free of newlines reads back, line by line, as it was built. */
  lemma ListingReadsBack(memory: Store)
    requires |memory| > 0
    requires forall k :: k in memory ==> '\n' !in k && '\n' !in memory[k]
    ensures Split(Listing(memory)) == ListingLines(memory)
  {
    var lines := ListingLines(memory);
    var ks := SortedKeys(memory.Keys);
    forall i | 0 <= i < |lines|
      ensures '\n' !in lines[i]
    {
      assert ks[i] in memory;
      assert lines[i] == ks[i] + " : " + memory[ks[i]];
    }
    SplitJoin(lines);
  }
}

=== FILE: string_order.dfy ===
/**
 * The ordering Python's `sorted` uses on `str` keys: lexicographic
 * comparison of code points, where a proper prefix sorts first.
 * Dafny's built-in `<` on sequences means "proper prefix", so the
 * order is defined here and proved to be a strict total order.
 */
module StringOrder {

  /** `a` sorts strictly before `b`. */
  predicate Below(a: string, b: string)
    ensures |a| < |b| && a == b[..|a|] ==> Below(a, b)
    decreases |a|
  {
    && |b| > 0
    && (|a| == 0 || a[0] < b[0] || (a[0] == b[0] && Below(a[1..], b[1..])))
  }

  lemma {:induction false} BelowIrreflexive(a: string)
    ensures !Below(a, a)
    decreases |a|
  {
    if |a| > 0 {
      BelowIrreflexive(a[1..]);
    }
  }

  lemma {:induction false} BelowTransitive(a: string, b: string, c: string)
    requires Below(a, b) && Below(b, c)
    ensures Below(a, c)
    decreases |a|
  {
    if |a| > 0 && a[0] == b[0] && b[0] == c[0] {
      BelowTransitive(a[1..], b[1..], c[1..]);
    }
  }

  lemma {:induction false} BelowTotal(a: string, b: string)
    ensures a == b || Below(a, b) || Below(b, a)
    decreases |a|
  {
    if |a| > 0 && |b| > 0 && a[0] == b[0] {
      BelowTotal(a[1..], b[1..]);
      if a[1..] == b[1..] {
        assert a == [a[0]] + a[1..] && b == [b[0]] + b[1..];
      }
    }
  }

  lemma BelowAsymmetric(a: string, b: string)
    requires Below(a, b)
    ensures !Below(b, a)
  {
    if Below(b, a) {
      BelowTransitive(a, b, a);
      BelowIrreflexive(a);
    }
  }

  /** Every pair of positions is in strictly increasing order. */
  predicate Ascending(s: seq<string>)
  {
    forall i, j :: 0 <= i < j < |s| ==> Below(s[i], s[j])
  }

  /** `k` is the smallest element of `ks`. */
  predicate IsLeast(k: string, ks: set<string>)
  {
    k in ks && forall j :: j in ks && j != k ==> Below(k, j)
  }

  lemma {:induction false} LeastExists(ks: set<string>)
    requires ks != {}
    ensures exists k :: IsLeast(k, ks)
    decreases |ks|
  {
    var x :| x in ks;
    if ks != {x} {
      var rest := ks - {x};
      LeastExists(rest);
      var y :| IsLeast(y, rest);
      BelowTotal(x, y);
      if Below(x, y) {
        forall j | j in ks && j != x
          ensures Below(x, j)
        {
          if j != y {
            BelowTransitive(x, y, j);
          }
        }
        assert IsLeast(x, ks);
      } else {
        assert IsLeast(y, ks);
      }
    } else {
      assert IsLeast(x, ks);
    }
  }

  lemma LeastUnique(ks: set<string>, k: string, k': string)
    requires IsLeast(k, ks) && IsLeast(k', ks)
    ensures k == k'
  {
    if k != k' {
      BelowAsymmetric(k, k');
    }
  }

  /** The keys of `ks` in ascending order, as `sorted(ks)` returns them. */
  function SortedKeys(ks: set<string>): (r: seq<string>)
    ensures Ascending(r)
    ensures forall k :: k in r <==> k in ks
    ensures |r| == |ks|
    decreases |ks|
  {
    if ks == {} then []
    else
      LeastExists(ks);
      assert forall k, k' :: IsLeast(k, ks) && IsLeast(k', ks) ==> k == k' by {
        forall k, k' | IsLeast(k, ks) && IsLeast(k', ks)
          ensures k == k'
        {
          LeastUnique(ks, k, k');
        }
      }
      var k :| IsLeast(k, ks);
      var rest := SortedKeys(ks - {k});
      assert forall j :: 0 <= j < |rest| ==> Below(k, rest[j]) by {
        forall j | 0 <= j < |rest|
          ensures Below(k, rest[j])
        {
          assert rest[j] in rest;
        }
      }
      [k] + rest
  }

  /** An ascending sequence is determined by its elements. */
  lemma {:induction false} AscendingUnique(a: seq<string>, b: seq<string>)
    requires Ascending(a) && Ascending(b)
    requires forall k :: k in a <==> k in b
    ensures a == b
    decreases |a|
  {
    assert |b| > 0 ==> b[0] in b;
    if |a| > 0 {
      assert a[0] in b;
      assert |b| > 0;
      assert b[0] in a;
      if a[0] != b[0] {
        var i :| 0 <= i < |a| && a[i] == b[0];
        var j :| 0 <= j < |b| && b[j] == a[0];
        assert Below(a[0], b[0]);
        assert Below(b[0], a[0]);
        BelowAsymmetric(a[0], b[0]);
      }
      forall k
        ensures k in a[1..] <==> k in b[1..]
      {
        assert a == [a[0]] + a[1..] && b == [b[0]] + b[1..];
        if k in a[1..] {
          var i :| 0 <= i < |a[1..]| && a[1..][i] == k;
          assert Below(a[0], a[i + 1]);
          BelowIrreflexive(a[0]);
          assert k != b[0];
          assert k in a;
          assert k in b;
          var j :| 0 <= j < |b| && b[j] == k;
          assert j > 0;
          assert b[1..][j - 1] == k;
        }
        if k in b[1..] {
          var j :| 0 <= j < |b[1..]| && b[1..][j] == k;
          assert Below(b[0], b[j + 1]);
          BelowIrreflexive(b[0]);
          assert k != a[0];
          assert k in b;
          assert k in a;
          var i :| 0 <= i < |a| && a[i] == k;
          assert i > 0;
          assert a[1..][i - 1] == k;
        }
      }
      AscendingUnique(a[1..], b[1..]);
      assert a == [a[0]] + a[1..] && b == [b[0]] + b[1..];
    }
  }

  /** `SortedKeys` is the one ascending enumeration of a key set. */
  lemma SortedKeysCharacterized(ks: set<string>, s: seq<string>)
    requires Ascending(s)
    requires forall k :: k in s <==> k in ks
    ensures SortedKeys(ks) == s
  {
    AscendingUnique(SortedKeys(ks), s);
  }
}

=== FILE: validator.dfy ===
/**
 * `CheckURI`: one outbound GET decides whether a long URI is kept. The
 * network call itself is a parameter, `get(uri, timeout)`, that reports
 * either the status code of the final response (redirects are followed)
 * or the exception raised.
 */
module Validator {

  /** What one outbound GET produced, after following redirects. */
  datatype Probe =
    | Answered(status: int)
    | Raised(reason: string)  // timeout, refused connection, DNS failure, malformed URI

  /** Seconds to wait when the caller passes no timeout. */
  const DefaultTimeout: nat := 5

  /** True exactly when the GET answered 200 OK; every exception counts as unreachable. */
  function CheckURI(uri: string, get: (string, nat) -> Probe, timeout: nat := DefaultTimeout): (valid: bool)
    ensures valid <==> get(uri, timeout) == Answered(200)
  {
    match get(uri, timeout)
    case Answered(status) => status == 200
    case Raised(_) => false
  }
}

=== FILE: wrappers.dfy ===
/** Failure-carrying values shared by the bookmark server model. */
module Wrappers {

  /** A value that may be absent. */
  datatype Option<+T> = None | Some(value: T)

  /** Either a computed value or the error that stopped the computation. */
  datatype Result<+R, +E> = Success(value: R) | Failure(error: E)
}
